=== FILE: README.md ===
# Raspirus signature store and file scanner, in Dafny

This project models two parts of the Raspirus virus scanner.

The first is the signature store, `DBOps` in `db_ops.rs`. It is a SQLite
database that holds the MD5 hex digests of known malware in a table named
`signatures`, with one index called `idx`. The model covers every primitive
`DBOps` offers: `init_table`, `create_index`, `drop_index`, `drop`, `vacuum`,
`rename`, `insert_hashes`, `hash_exists`, `count_hashes` and `remove_hashes`.
It also covers the full update protocol `update_db`. That protocol parks
`signatures` under the name `old` and fills a fresh table. It then either
rolls back or commits: the commit drops `old`, rebuilds the index and
returns the row count.

The second is the scan, `FileScanner` in `file_scanner.rs`:
- `create_hash` reads a file through a buffer of `max_ram` bytes and digests
  it with MD5;
- `search_files` walks a directory, counts analysed and skipped files, looks
  each digest up in the store, and records paths and matches.

The project has these modules:
- `Wrappers` (`wrappers.dfy`): `Option` and `Result`.
- `SignatureStore` (`signature_store.dfy`): the database as an immutable
  value `Db(tables, idx)`.
  - `tables` maps each table name to its rows, in insertion order.
  - `idx` names the table the index is built on. SQLite moves an index with
    its table on `ALTER TABLE ... RENAME` and drops it with `DROP TABLE`.
  - Each statement is a function from a state to a `Step`: a new state plus
    the statement's result.
  - Engine failures (disk, lock, corruption) are fault oracles passed in as
    parameters.
  - Logical failures are computed from the state: a missing table, an index
    that already exists, a count too large for `u32`.
- `StoreUpdate` (`store_update.dfy`): `update_db` in three phases.
  - `Stage` fetches the records, backs up `signatures` and runs the insert
    step.
  - `Rollback` and `Commit` are the two ways the update can finish.
  - An `Exit` tag records at which step the update ended. The tag is not
    part of the Rust return value; it lets contracts talk about each path.
- `FileDigest` (`file_digest.dfy`): `create_hash`.
  - The file is either unopenable or an opened file: its content plus a
    script of how each `read` call behaves.
  - MD5 and the `{:?}` rendering of its result are one function parameter,
    `md5`.
- `FileScanner` (`file_scanner.dfy`): `search_files` over the sequence of
  entries the directory walk yields.

Three behaviours of the code are worth knowing before reading the model:
- The failure branch of `update_db` is commented `// undo table move`
  (`db_ops.rs:111`): it is meant to put the backed-up table back. As
  written, it stops at its first statement when the insert step never
  created a fresh `signatures`, leaving the store without that table (first
  finding below).
- When the undo does complete, `signatures` holds its previous rows again.
  A stale `old` from an earlier aborted run is not restored, though:
  `rename` begins with `DROP TABLE IF EXISTS` on its target
  (`db_ops.rs:166-168`), so the backup step already removed it.
- `dirty_files` is documented as the files "identified as malicious"
  (`file_scanner.rs:21`), and its length is logged as the "Infected" count
  (`file_scanner.rs:135-138`). As written, it receives every file whose
  lookup succeeds, whether or not its digest is listed (third finding
  below). The result log does hold only matches.

## Model

| member | source | states |
|---|---|---|
| SignatureStore.Occurrences | src-tauri/src/backend/db_ops.rs:230-236 | the count of rows equal to a hash is positive exactly when the hash is a row, and never exceeds the row count |
| SignatureStore.Purge | src-tauri/src/backend/db_ops.rs:276-279 | deleting every row equal to `h` leaves no copy of `h` and every copy of every other value (as multisets), so the row count drops by exactly the copies of `h` |
| SignatureStore.SurvivingCounts | src-tauri/src/backend/db_ops.rs:275-286 | the reference result of a batch of deletes holds no copy of a deleted value and every copy of any other value |
| SignatureStore.SurvivingMembers | src-tauri/src/backend/db_ops.rs:275-286 | a value survives a batch of deletes exactly when it was a row and is not deleted, and no row is added |
| SignatureStore.SurvivingPurge | src-tauri/src/backend/db_ops.rs:276-279 | one more `DELETE ... WHERE hash = ?` on the survivors equals the batch with that hash added |
| SignatureStore.SurvivingAll | src-tauri/src/backend/db_ops.rs:275-286 | deleting only values that are not rows removes nothing |
| SignatureStore.Kept | src-tauri/src/backend/db_ops.rs:194-205 | the rows a batch contributes number exactly as many as the statements that succeed |
| SignatureStore.KeptMembers | src-tauri/src/backend/db_ops.rs:194-205 | a hash is among the contributed rows if and only if some statement offering it succeeds |
| SignatureStore.InitTable | src-tauri/src/backend/db_ops.rs:62-72 | succeeds exactly when the statement does not fault; afterwards `signatures` exists with its previous rows; an existing table is left untouched; no other table and not the index changes |
| SignatureStore.CreateIndex | src-tauri/src/backend/db_ops.rs:75-81 | succeeds exactly when `signatures` exists and there is no index yet, and then puts the index on `signatures`; otherwise reports the missing table or the existing index and changes nothing |
| SignatureStore.DropIndex | src-tauri/src/backend/db_ops.rs:84-87 | an absent index is not an error; on success there is no index and the tables are unchanged |
| SignatureStore.Drop | src-tauri/src/backend/db_ops.rs:147-152 | succeeds exactly when the table exists, removes only that table (and an index built on it), and reports a missing table as `NoSuchTable` |
| SignatureStore.DropIfExists | src-tauri/src/backend/db_ops.rs:166-168 | succeeds whether or not the table exists and removes only that table and its index |
| SignatureStore.Vacuum | src-tauri/src/backend/db_ops.rs:154-157 | leaves the logical content unchanged and fails only on a fault |
| SignatureStore.Rename | src-tauri/src/backend/db_ops.rs:160-174 | succeeds exactly when neither statement faults, the source exists and the names differ; then the target holds the source's rows, the source is gone and the index follows; a failed ALTER leaves the target already dropped |
| SignatureStore.InsertRows | src-tauri/src/backend/db_ops.rs:194-205 | applied plus skipped is the batch length; applied is the number of statements that succeed; the table becomes its old rows followed by the accepted hashes in batch order |
| SignatureStore.RemoveRows | src-tauri/src/backend/db_ops.rs:275-286 | applied plus skipped is the batch length; applied is the number of statements that succeed; the rows left are the old rows, in order, less every row whose value a succeeding statement names |
| SignatureStore.RemoveRowsCounts | src-tauri/src/backend/db_ops.rs:275-286 | after the remove loop, a value named by a succeeding statement has no copy left, every other value keeps all its copies, and a row survives if and only if it was there and no succeeding statement names it |
| SignatureStore.InsertHashes | src-tauri/src/backend/db_ops.rs:186-215 | succeeds exactly when `init_table`, the transaction start and the commit do not fault; returns the number of accepted rows; appends exactly those rows; a failure leaves the rows as they were; other tables and the index are untouched |
| SignatureStore.RemoveHashes | src-tauri/src/backend/db_ops.rs:267-296 | succeeds under the same conditions as the insert; returns the number of statements that succeeded, including those that matched nothing; on success the rows are the old rows, in order, less every row whose value a succeeding statement names; a failure leaves the rows as they were; other tables and the index are untouched |
| SignatureStore.RemoveHashesCounts | src-tauri/src/backend/db_ops.rs:267-296 | after a successful remove, no copy of a hash whose statement succeeded is left, every other value keeps its exact number of copies, and a row survives if and only if it was there and no succeeding statement names it |
| SignatureStore.HashExists | src-tauri/src/backend/db_ops.rs:227-237 | answers exactly when the statement does not fault and `signatures` exists, and then answers whether the hash is a row |
| SignatureStore.CountHashes | src-tauri/src/backend/db_ops.rs:249-255 | returns the number of rows when it fits a `u32`; a larger count is `OutOfRange`; a missing table is an error |
| SignatureStore.InitTableIdempotent | src-tauri/src/backend/db_ops.rs:62-72 | a second `init_table` changes nothing |
| SignatureStore.IndexTransparent | src-tauri/src/backend/db_ops.rs:227-255 | lookups and counts give the same answer with or without the index |
| SignatureStore.IndexToggle | src-tauri/src/backend/db_ops.rs:75-87 | dropping and recreating the index leaves it on `signatures` with the tables unchanged |
| SignatureStore.RenameRoundTrip | src-tauri/src/backend/db_ops.rs:160-174 | renaming a table away and back restores it; whatever was under the other name is gone |
| SignatureStore.InsertThenLookup | src-tauri/src/backend/db_ops.rs:186-237 | after a successful insert, a hash is found if and only if it was a row before or one of its statements succeeded |
| SignatureStore.InsertThenCount | src-tauri/src/backend/db_ops.rs:186-255 | after a successful insert, the count grows by exactly the number the insert returned |
| SignatureStore.RemoveThenLookup | src-tauri/src/backend/db_ops.rs:267-296 | after a successful remove, no hash whose statement succeeded is found |
| SignatureStore.RemoveMissKeepsRows | src-tauri/src/backend/db_ops.rs:267-296 | a remove whose succeeding statements name no stored row leaves the rows, and so the count, as they were |
| StoreUpdate.InsertAll | src-tauri/src/backend/db_ops.rs:109 | the insert step touches only `signatures`, keeps the index where it was, and fails only with a read failure or a store error |
| StoreUpdate.InsertAllRows | src-tauri/src/backend/db_ops.rs:109 | a successful insert step leaves the previous rows followed by exactly the rows of the files whose statement succeeds, file by file and in batch order |
| StoreUpdate.DownloadedMembers | src-tauri/src/backend/db_ops.rs:109 | a value is among the downloaded rows exactly when some readable file offers it through a succeeding statement, and every such row is among them |
| StoreUpdate.InsertAllContents | src-tauri/src/backend/db_ops.rs:109 | a successful insert step leaves the previous rows followed by exactly the downloaded rows; hence it keeps every previous value, holds every row of the readable files whose statement succeeds, and holds no other value |
| StoreUpdate.Stage | src-tauri/src/backend/db_ops.rs:101-109 | a failing source stops the update with the store untouched; otherwise the active table is parked under `old` with its rows and the index moves with it; a successful insert step leaves the fresh `signatures` equal to the downloaded rows, in order and with their multiplicity, and holding every row whose statement succeeds |
| StoreUpdate.Rollback | src-tauri/src/backend/db_ops.rs:109-124 | the rollback completes exactly when neither compensating statement faults and both tables exist, and then `old`'s rows are back under `signatures` with the insert step's error returned; when the drop does not fault, a missing fresh table aborts it with `NoSuchTable` and changes nothing |
| StoreUpdate.Commit | src-tauri/src/backend/db_ops.rs:126-143 | succeeds exactly when no step faults, both tables exist and the count fits a `u32`; then `old` is gone, the index is on `signatures`, and the result is the row count |
| StoreUpdate.UpdateDb | src-tauri/src/backend/db_ops.rs:99-144 | returns `Ok` exactly when it commits; a failing source leaves the store untouched; a commit leaves no `old`, the index on `signatures`, every unrelated table as it was, and `signatures` equal to the downloaded rows, in order and with their multiplicity; the value returned is their number |
| StoreUpdate.UpdateDbRollsBack | src-tauri/src/backend/db_ops.rs:109-124 | a completed rollback leaves the tables as before the update, less `old`; an aborted one leaves the previous rows under `old` |
| StoreUpdate.RolledBackKeepsLookups | src-tauri/src/backend/db_ops.rs:109-124 | after a completed rollback every lookup and the count answer as before the update |
| StoreUpdate.CommittedReturnsCount | src-tauri/src/backend/db_ops.rs:139-143 | a committed update returns what `count_hashes` reports on the new table |
| StoreUpdate.RollbackStrandsBackup | src-tauri/src/backend/db_ops.rs:112-115 | an insert step that fails before the fresh table exists aborts the rollback as written: `signatures` is gone and the previous rows sit under `old`; the intended rollback restores them |
| StoreUpdate.StrandedBackupOverwritten | src-tauri/src/backend/db_ops.rs:166-168 | after such an abort, reopening the store and starting the next update parks an empty table under `old`, so the stranded rows are lost |
| StoreUpdate.RollbackIntended | src-tauri/src/backend/db_ops.rs:112-115 | with `DROP TABLE IF EXISTS`, the rollback completes exactly when no compensating statement faults and the backup exists, and then restores the backup |
| StoreUpdate.CommitIntended | src-tauri/src/backend/db_ops.rs:126-143 | the commit that first checks for a fresh `signatures`: with the table it is the commit as written; without it, it fails with `NoSuchTable` and changes nothing, so it never leaves the store without `signatures` unless it left it untouched |
| StoreUpdate.UpdateDbIntended | src-tauri/src/backend/db_ops.rs:99-144 | with the intended rollback and commit: `Ok` exactly when it commits; when the compensating statements do not fault, a rollback that starts is never aborted; a completed rollback leaves the tables as before less `old`; and when `signatures` existed at the start, however the update ends, either `signatures` exists or `old` holds the rows the update started from |
| StoreUpdate.EmptyFillLosesBackup | src-tauri/src/backend/db_ops.rs:126-137 | a download of no files makes the commit as written drop `old` and then fail at `create_index`, leaving no table at all; the intended commit fails with the backup still under `old` |
| FileDigest.ReadCount | src-tauri/src/backend/file_scanner.rs:172-177 | a read returns no more than the buffer and the remaining content, and 0 exactly at end of file or for an empty buffer |
| FileDigest.ChunksFit | src-tauri/src/backend/file_scanner.rs:160-183 | every chunk handed to MD5 is non-empty and no larger than the buffer of `max_ram` bytes |
| FileDigest.ChunksCover | src-tauri/src/backend/file_scanner.rs:171-185 | with a non-empty buffer, the chunks consumed make up the rest of the file, in order |
| FileDigest.Digest | src-tauri/src/backend/file_scanner.rs:156-186 | a digest exists exactly when the file opens, is non-empty, the buffer is non-empty and no read fails; it is MD5 of the whole content |
| FileDigest.ReadsCountsChunks | src-tauri/src/backend/file_scanner.rs:170-185 | the loop's read counter fails exactly when the chunk sequence does and otherwise equals its length |
| FileDigest.CreateHash | src-tauri/src/backend/file_scanner.rs:156-200 | the read loop returns exactly the digest `Digest` describes: none for an unopenable file, a failing read or an empty first read, otherwise MD5 of the whole content |
| FileDigest.DigestIgnoresChunking | src-tauri/src/backend/file_scanner.rs:171-186 | whenever two read scripts over the same content both yield a digest, the digests are equal: the result does not depend on how the reads split the content |
| FileDigest.LateReadFailure | src-tauri/src/backend/file_scanner.rs:172-175 | a read that fails after a chunk was already consumed still yields no digest |
| FileScanner.Reached | src-tauri/src/backend/file_scanner.rs:98-104 | the entries the scan reaches are the longest prefix without a metadata failure |
| FileScanner.Visit | src-tauri/src/backend/file_scanner.rs:98-131 | a metadata failure stops the scan; walk errors and non-files change nothing; a regular file bumps exactly one counter, `analysed` when it has a digest and `skipped` otherwise, joins `dirty` exactly when the lookup answers, and is logged exactly when it also is listed |
| FileScanner.Walk | src-tauri/src/backend/file_scanner.rs:94-132 | analysed plus skipped grows by exactly the number of regular files before the first metadata failure, and neither counter decreases |
| FileScanner.WalkAppends | src-tauri/src/backend/file_scanner.rs:117-130 | the scan only appends to `dirty` and to the log |
| FileScanner.WalkBounds | src-tauri/src/backend/file_scanner.rs:105-131 | `dirty` grows by at most one path per regular file reached, the log by no more than `dirty`, and every logged hash is listed |
| FileScanner.SearchFiles | src-tauri/src/backend/file_scanner.rs:90-141 | the scan loop computes the state `Walk` describes, starting from zero counters and an empty log |
| FileScanner.ScanFile | src-tauri/src/backend/file_scanner.rs:107-130 | the body for a regular file performs exactly the step `Visit` describes |
| FileScanner.MetadataFailureStops | src-tauri/src/backend/file_scanner.rs:98-104 | a scan meeting a metadata failure ends exactly as the scan of the entries before it: neither the failing entry nor anything after it affects the result |
| FileScanner.CleanFileMarkedDirty | src-tauri/src/backend/file_scanner.rs:117-122 | a readable file whose digest is not listed is pushed onto `dirty` as written, without a log line; the intended step leaves `dirty` alone |
| FileScanner.EmptyKeyLookup | src-tauri/src/backend/file_scanner.rs:112-117 | a file without a digest is looked up as "", so a stored empty row logs it as a match |
| FileScanner.VisitIntended | src-tauri/src/backend/file_scanner.rs:117-130 | in the intended step, a regular file bumps `analysed` when it has a digest and `skipped` otherwise, and joins `dirty` exactly when its lookup answers that it is listed, together with its log line |

## Left out

- SQL text and table names spliced into statements with `format!`: the model works on table names, not SQL strings.
- SQLite's single namespace for tables and indexes: the model keeps tables and the one index apart.
- Table names are compared exactly, while SQLite ignores ASCII case in them. Every call in `db_ops.rs` passes the lower-case names `signatures` and `old`, and the code never creates any other table. The model therefore differs from SQLite only on a store that already holds a table whose name equals `signatures` or `old` up to ASCII case (`Signatures`, `OLD`, ...): for such a store, `init_table` would see the existing table, `rename` would drop it, and the "other tables unchanged" clauses of `InitTable`, `Rename`, `InsertHashes`, `RemoveHashes`, `Stage` and `UpdateDb` do not hold in SQLite.
- The physical effect of `VACUUM`, and the database file on disk. Only the logical content is modelled.
- `DBOps::new`, which returns the connection error, and `FileScanner::new`, which calls `exit(-1)` when the store cannot be opened: opening connections and the scanner's construction are I/O. The reopening step in `StoreUpdate.StrandedBackupOverwritten` is its `init_table` call.
- How `FileScanner::new` derives `max_ram` from half the available memory, in floating point: `max_ram` is a parameter.
- Logging, timing, progress events to the window, the time-stamped log file name, and the terminal-width debug line of `create_hash`.
- `index()`, `download_all` and `insert_all` live outside `db_ops.rs` and are not part of this model. The first two are the booleans of `RecordSource`. `StoreUpdate.InsertAll` assumes `insert_all` calls `insert_hashes` once per readable downloaded file, in order, and stops at the first failure.
- The `WalkDir` traversal itself (order, symlinks, permissions): the walk is the input sequence of entries.
- MD5 (RFC 1321) and the hex rendering of its result: the parameter `md5`. The buffer allocation `vec![0; max_ram]` is not modelled.
- The counters are unbounded `nat`s; none can realistically overflow. They are the `i128` counters of `search_files`, the `usize` `inserted` and `removed` of the batch loops, their `skipped`, an inferred `i32`, and the read counter `it` of `create_hash`, also an inferred `i32` whose `it == 0` test decides an empty first read (a debug build would panic after 2^31 non-empty reads).
- The `Exit` tag of `StoreUpdate.Update` is an addition of the model; the Rust function returns only the `Result`.
- FileDigest.CreateHash: its contract is equality with the function `FileDigest.Digest`. The properties of the digest are stated on `Digest`, `ChunksFit` and `ChunksCover`.
- FileScanner.SearchFiles: its contract is equality with `FileScanner.Walk`. The properties of the scan are stated on `Walk`, `Visit`, `WalkAppends` and `WalkBounds`.

## Findings

| source | as written | input that shows it | evidently intended | confidence | as-written member | corrected member |
|---|---|---|---|---|---|---|
| src-tauri/src/backend/db_ops.rs:112-115 | the rollback removes the fresh table with a plain `DROP TABLE signatures` and returns as soon as that fails, before renaming `old` back | a store holding `["a"]`; the insert step's first `init_table` faults, so no fresh `signatures` exists; no compensating statement faults | drop the fresh table only if it exists, then rename `old` back, restoring the previous rows | high, not executed | StoreUpdate.RollbackStrandsBackup | StoreUpdate.UpdateDbIntended |
| src-tauri/src/backend/db_ops.rs:126-137 | the commit branch drops `old` before anything checks that a fresh `signatures` exists; `create_index` then fails on the missing table | a store holding `["a"]`; the download yields no file, so the insert step succeeds without creating `signatures`; no statement faults | keep the backup until a fresh `signatures` exists, failing the commit with `old` intact | low, not executed | StoreUpdate.EmptyFillLosesBackup | StoreUpdate.UpdateDbIntended |
| src-tauri/src/backend/file_scanner.rs:117-121 | every lookup that returns `Ok` pushes the path onto `dirty_files`, including `Ok(false)` | a readable file whose MD5 is not in `signatures` | push the path only when the lookup returns `Ok(true)`, as the field's documentation (files identified as malicious) and the "Infected" count say | medium, not executed | FileScanner.CleanFileMarkedDirty | FileScanner.VisitIntended |

=== FILE: file_digest.dfy ===
/**
 * `FileScanner::create_hash`: the MD5 digest of a file, computed by reading
 * it through a `BufReader` into a buffer of `max_ram` bytes and feeding each
 * chunk to a streaming MD5 context.
 *
 * MD5 itself (RFC 1321) and the `{:?}` hex rendering of its result are one
 * function parameter `md5`; the streaming context is modelled by the bytes it
 * has consumed.  The file system is an oracle: a file either cannot be opened
 * or has a content and a script saying how each `read` call behaves.
 */
module FileDigest {
  import opened Wrappers

  newtype Byte = b: int | 0 <= b < 256

  /**
   * One `read` call: it hands back `size` bytes, capped by the buffer and by
   * what is left, or it fails.  `Chunk(0)` stands for a call that still
   * hands back one byte when both are non-empty (see `ReadCount`).
   */
  datatype ReadStep = Chunk(size: nat) | ReadFails

  /**
   * A file as `File::open` and successive `read` calls meet it.  Once the
   * script is used up, every read fills as much of the buffer as the
   * remaining content allows.
   */
  datatype FileSource = Unopenable | Opened(content: seq<Byte>, script: seq<ReadStep>)

  function Min(a: nat, b: nat): nat {
    if a <= b then a else b
  }

  /** Read number `it`: as the script says, or a full-buffer read once the script is used up. */
  function NextRead(script: seq<ReadStep>, it: nat, cap: nat): ReadStep {
    if it < |script| then script[it] else Chunk(cap)
  }

  /**
   * The byte count of a successful `read` into a buffer of `cap` bytes with
   * `remaining` bytes left in the file.  Following the `Read` contract, it is
   * 0 exactly at the end of the file or for an empty buffer, and otherwise at
   * least 1 and no more than fits.
   */
  function ReadCount(want: nat, cap: nat, remaining: nat): (n: nat)
    ensures n <= cap && n <= remaining
    ensures n == 0 <==> cap == 0 || remaining == 0
  {
    if cap == 0 || remaining == 0 then 0
    else if want == 0 then 1
    else Min(want, Min(cap, remaining))
  }

  /** The concatenation of the chunks, in order. */
  function Concat(chunks: seq<seq<Byte>>): seq<Byte> {
    if |chunks| == 0 then [] else chunks[0] + Concat(chunks[1..])
  }

  /** `cs` followed by the chunks still to come, if reading them succeeds. */
  function Prefixed(cs: seq<seq<Byte>>, rest: Option<seq<seq<Byte>>>): Option<seq<seq<Byte>>> {
    match rest
    case None => None
    case Some(more) => Some(cs + more)
  }

  /**
   * The chunks the read loop consumes from byte `pos` of `content` on,
   * starting with read number `it`, until a read returns 0; `None` when a
   * read fails.  The first chunk is never empty, and an empty buffer
   * consumes nothing.
   */
  function ReadFrom(content: seq<Byte>, script: seq<ReadStep>, cap: nat, pos: nat, it: nat): (r: Option<seq<seq<Byte>>>)
    requires pos <= |content|
    ensures r.Some? && |r.value| > 0 ==> |r.value[0]| > 0
    ensures r.Some? && cap == 0 ==> r.value == []
    decreases |content| - pos
  {
    var step := NextRead(script, it, cap);
    if step.ReadFails? then None
    else
      var n := ReadCount(step.size, cap, |content| - pos);
      if n == 0 then Some([])
      else Prefixed([content[pos..pos + n]], ReadFrom(content, script, cap, pos + n, it + 1))
  }

  /** The chunks the read loop consumes from a freshly opened file. */
  function ReadAll(content: seq<Byte>, script: seq<ReadStep>, cap: nat): Option<seq<seq<Byte>>> {
    ReadFrom(content, script, cap, 0, 0)
  }

  /** Every chunk the read loop consumes is non-empty and fits the buffer of `cap` bytes. */
  lemma {:induction false} ChunksFit(content: seq<Byte>, script: seq<ReadStep>, cap: nat, pos: nat, it: nat)
    requires pos <= |content| && ReadFrom(content, script, cap, pos, it).Some?
    ensures var chunks := ReadFrom(content, script, cap, pos, it).value;
            forall j :: 0 <= j < |chunks| ==> 0 < |chunks[j]| <= cap
    decreases |content| - pos
  {
    var n := ReadCount(NextRead(script, it, cap).size, cap, |content| - pos);
    if n > 0 {
      ChunksFit(content, script, cap, pos + n, it + 1);
    }
  }

  /** With a non-empty buffer, the chunks the read loop consumes make up the rest of the content, in order. */
  lemma {:induction false} ChunksCover(content: seq<Byte>, script: seq<ReadStep>, cap: nat, pos: nat, it: nat)
    requires pos <= |content| && cap > 0 && ReadFrom(content, script, cap, pos, it).Some?
    ensures Concat(ReadFrom(content, script, cap, pos, it).value) == content[pos..]
    decreases |content| - pos
  {
    var n := ReadCount(NextRead(script, it, cap).size, cap, |content| - pos);
    if n > 0 {
      ChunksCover(content, script, cap, pos + n, it + 1);
      var more := ReadFrom(content, script, cap, pos + n, it + 1).value;
      assert ([content[pos..pos + n]] + more)[1..] == more;
      assert content[pos..] == content[pos..pos + n] + content[pos + n..];
    }
  }

  lemma ConcatNonEmpty(chunks: seq<seq<Byte>>)
    requires |chunks| > 0 && |chunks[0]| > 0
    ensures |Concat(chunks)| > 0
  {
  }

  /**
   * The digest `create_hash` returns: none for a file that cannot be opened,
   * for a failing read, and when the first read already yields nothing;
   * otherwise MD5 of the whole content.
   */
  function Digest(file: FileSource, cap: nat, md5: seq<Byte> -> string): (r: Option<string>)
    ensures r.Some? ==> file.Opened? && |file.content| > 0 && cap > 0 && r.value == md5(file.content)
    ensures r.Some? <==>
              file.Opened? && |file.content| > 0 && cap > 0 && ReadAll(file.content, file.script, cap).Some?
  {
    match file
    case Unopenable => None
    case Opened(content, script) =>
      match ReadAll(content, script, cap)
      case None => None
      case Some(chunks) =>
        if |chunks| == 0 then None
        else
          ConcatNonEmpty(chunks);
          ChunksCover(content, script, cap, 0, 0);
          assert content[0..] == content;
          Some(md5(Concat(chunks)))
  }

  /** `create_hash` with a buffer of `cap` bytes, as a function of the file. */
  function Hasher(cap: nat, md5: seq<Byte> -> string): FileSource -> Option<string> {
    file => Digest(file, cap, md5)
  }

  /** `k` more reads in front of an outcome counted by `Reads`. */
  function After(k: nat, r: Option<nat>): Option<nat> {
    match r
    case None => None
    case Some(m) => Some(k + m)
  }

  /**
   * The number of non-empty reads the loop makes from byte `pos` on,
   * starting with read number `it`, or `None` when a read fails: the loop's
   * own bookkeeping, without the bytes.
   */
  function Reads(content: seq<Byte>, script: seq<ReadStep>, cap: nat, pos: nat, it: nat): Option<nat>
    requires pos <= |content|
    decreases |content| - pos
  {
    var step := NextRead(script, it, cap);
    if step.ReadFails? then None
    else
      var n := ReadCount(step.size, cap, |content| - pos);
      if n == 0 then Some(0)
      else After(1, Reads(content, script, cap, pos + n, it + 1))
  }

  /** `Reads` counts the chunks `ReadFrom` consumes, and fails exactly when it does. */
  lemma {:induction false} ReadsCountsChunks(content: seq<Byte>, script: seq<ReadStep>, cap: nat, pos: nat, it: nat)
    requires pos <= |content|
    ensures Reads(content, script, cap, pos, it).Some? <==> ReadFrom(content, script, cap, pos, it).Some?
    ensures Reads(content, script, cap, pos, it).Some? ==>
              Reads(content, script, cap, pos, it).value == |ReadFrom(content, script, cap, pos, it).value|
    decreases |content| - pos
  {
    var step := NextRead(script, it, cap);
    if step.Chunk? {
      var n := ReadCount(step.size, cap, |content| - pos);
      if n > 0 {
        ReadsCountsChunks(content, script, cap, pos + n, it + 1);
      }
    }
  }

  /** One more non-empty read moves one count from what is still to come to what has been done. */
  lemma ReadsStep(content: seq<Byte>, script: seq<ReadStep>, cap: nat, pos: nat, it: nat, count: nat, k: nat)
    requires pos <= |content| && NextRead(script, it, cap).Chunk?
    requires count == ReadCount(NextRead(script, it, cap).size, cap, |content| - pos) > 0
    ensures After(k, Reads(content, script, cap, pos, it)) == After(k + 1, Reads(content, script, cap, pos + count, it + 1))
  {
  }

  /** The read loop of `create_hash`. */
  method CreateHash(file: FileSource, maxRam: nat, md5: seq<Byte> -> string) returns (r: Option<string>)
    ensures r == Digest(file, maxRam, md5)
  {
    if file.Unopenable? {
      return None;
    }
    var content, script := file.content, file.script;
    ReadsCountsChunks(content, script, maxRam, 0, 0);
    var consumed: seq<Byte> := [];  // every byte fed to the MD5 context so far
    var pos := 0;
    var it := 0;
    ghost var total := Reads(content, script, maxRam, 0, 0);
    while true
      invariant 0 <= pos <= |content|
      invariant consumed == content[..pos]
      invariant it > 0 ==> maxRam > 0
      invariant total == After(it, Reads(content, script, maxRam, pos, it))
      decreases |content| - pos
    {
      var step := if it < |script| then script[it] else Chunk(maxRam);
      assert step == NextRead(script, it, maxRam);
      if step.ReadFails? {
        return None;
      }
      var count := ReadCount(step.size, maxRam, |content| - pos);
      if count == 0 {
        if it == 0 {
          return None;
        }
        break;
      }
      var chunk := content[pos..pos + count];
      ReadsStep(content, script, maxRam, pos, it, count, it);
      assert content[..pos + count] == consumed + chunk;
      consumed := consumed + chunk;
      pos, it := pos + count, it + 1;
    }
    assert content[..pos] == content;
    return Some(md5(consumed));
  }

  /** The digest does not depend on how the reads split the content. */
  lemma DigestIgnoresChunking(content: seq<Byte>, script1: seq<ReadStep>, script2: seq<ReadStep>,
                              cap: nat, md5: seq<Byte> -> string)
    requires Digest(Opened(content, script1), cap, md5).Some?
    requires Digest(Opened(content, script2), cap, md5).Some?
    ensures Digest(Opened(content, script1), cap, md5) == Digest(Opened(content, script2), cap, md5)
  {
  }

  /** A read that fails after a first chunk was consumed still yields no digest. */
  lemma LateReadFailure(content: seq<Byte>, first: nat, cap: nat, md5: seq<Byte> -> string)
    requires 0 < first <= cap && first < |content|
    ensures Digest(Opened(content, [Chunk(first), ReadFails]), cap, md5).None?
  {
    assert ReadFrom(content, [Chunk(first), ReadFails], cap, first, 1).None?;
  }
}

=== FILE: file_scanner.dfy ===
/**
 * `FileScanner::search_files`: the walk over every entry under the scan
 * root.  The walk itself (`WalkDir`) is an input sequence of entries; each
 * regular file is digested with `create_hash` and looked up with
 * `hash_exists` against the signature store.
 */
module FileScanner {
  import opened Wrappers
  import opened SignatureStore
  import opened FileDigest

  type Path = string

  /** One item the directory walk yields, as the scan loop classifies it. */
  datatype Entry =
    | WalkFailed                                                  // an `Err` item, dropped by `filter_map`
    | MetadataFailed(path: Path)                                  // `metadata()` failed on it
    | NotAFile(path: Path)                                        // a directory, link or other non-regular entry
    | RegularFile(path: Path, file: FileSource, lookupFault: bool) // its content, and whether its lookup faults

  /** A line of the result log: the hash that matched and the file it came from. */
  datatype Match = Match(hash: Hash, path: Path)

  /** The counters of one scan, the scanner's `dirty_files`, and the result log. */
  datatype ScanState = ScanState(analysed: nat, skipped: nat, dirty: seq<Path>, log: seq<Match>)

  /** The entries the scan reaches: all of them up to, not including, the first metadata failure. */
  function Reached(entries: seq<Entry>): (r: seq<Entry>)
    ensures |r| <= |entries| && r == entries[..|r|]
    ensures forall j :: 0 <= j < |r| ==> !r[j].MetadataFailed?
    ensures |r| < |entries| ==> entries[|r|].MetadataFailed?
  {
    if |entries| == 0 || entries[0].MetadataFailed? then []
    else [entries[0]] + Reached(entries[1..])
  }

  /** The number of regular files among `entries`. */
  function RegularFiles(entries: seq<Entry>): nat {
    if |entries| == 0 then 0
    else (if entries[0].RegularFile? then 1 else 0) + RegularFiles(entries[1..])
  }

  /** The hash `search_files` looks up for a file: its digest, or "" when it has none. */
  function LookupKey(digest: Option<string>): Hash {
    if digest.Some? then digest.value else ""
  }

  /** `hash` is a row of the store's `signatures` table. */
  predicate Listed(db: Db, hash: Hash) {
    Signatures in db.tables && hash in db.tables[Signatures]
  }

  /** `st` with the counter for `digest` bumped: analysed when there is one, skipped otherwise. */
  function Count(st: ScanState, digest: Option<string>): ScanState {
    if digest.Some? then st.(analysed := st.analysed + 1) else st.(skipped := st.skipped + 1)
  }

  /**
   * The bookkeeping for one regular file as written, given its digest and
   * the answer of the lookup.
   */
  function Record(st: ScanState, path: Path, digest: Option<string>, found: Result<bool, DbError>): ScanState {
    var counted := Count(st, digest);
    match found
    case Err(_) => counted
    case Ok(isListed) =>
      var pushed := counted.(dirty := counted.dirty + [path]);
      if isListed then pushed.(log := pushed.log + [Match(LookupKey(digest), path)]) else pushed
  }

  /**
   * One entry of the scan loop as written; `None` when the scan stops here.
   * A regular file's path goes to `dirty` whenever the lookup succeeds,
   * whatever it answers, and to the log only when its hash is listed.
   */
  function Visit(st: ScanState, e: Entry, db: Db, hashOf: FileSource -> Option<string>): (v: Option<ScanState>)
    ensures v.None? <==> e.MetadataFailed?
    ensures e.WalkFailed? || e.NotAFile? ==> v == Some(st)
    ensures e.RegularFile? ==>
              var key := LookupKey(hashOf(e.file));
              var answered := !e.lookupFault && Signatures in db.tables;
              && v.Some?
              && v.value.analysed + v.value.skipped == st.analysed + st.skipped + 1
              && (v.value.analysed == st.analysed + 1 <==> hashOf(e.file).Some?)
              && v.value.analysed == st.analysed + (if hashOf(e.file).Some? then 1 else 0)
              && v.value.skipped == st.skipped + (if hashOf(e.file).Some? then 0 else 1)
              && v.value.dirty == (if answered then st.dirty + [e.path] else st.dirty)
              && v.value.log == (if answered && Listed(db, key) then st.log + [Match(key, e.path)] else st.log)
  {
    match e
    case WalkFailed => Some(st)
    case MetadataFailed(_) => None
    case NotAFile(_) => Some(st)
    case RegularFile(path, file, fault) =>
      var digest := hashOf(file);
      Some(Record(st, path, digest, HashExists(db, LookupKey(digest), fault)))
  }

  /** The scan loop from state `st` over `entries`. */
  function Walk(st: ScanState, entries: seq<Entry>, db: Db, hashOf: FileSource -> Option<string>): (r: ScanState)
    ensures r.analysed + r.skipped == st.analysed + st.skipped + RegularFiles(Reached(entries))
    ensures r.analysed >= st.analysed && r.skipped >= st.skipped
    decreases |entries|
  {
    if |entries| == 0 then st
    else
      match Visit(st, entries[0], db, hashOf)
      case None => st
      case Some(next) => Walk(next, entries[1..], db, hashOf)
  }

  /** The scan only appends to `dirty` and to the log. */
  lemma {:induction false} WalkAppends(st: ScanState, entries: seq<Entry>, db: Db, hashOf: FileSource -> Option<string>)
    ensures var r := Walk(st, entries, db, hashOf);
            && |r.dirty| >= |st.dirty| && r.dirty[..|st.dirty|] == st.dirty
            && |r.log| >= |st.log| && r.log[..|st.log|] == st.log
    decreases |entries|
  {
    if |entries| > 0 {
      match Visit(st, entries[0], db, hashOf) {
        case None =>
        case Some(next) =>
          WalkAppends(next, entries[1..], db, hashOf);
          var r := Walk(next, entries[1..], db, hashOf);
          assert r.dirty[..|st.dirty|] == r.dirty[..|next.dirty|][..|st.dirty|];
          assert r.log[..|st.log|] == r.log[..|next.log|][..|st.log|];
      }
    }
  }

  /**
   * The scan adds at most one path to `dirty` per regular file reached, a
   * log line only together with a path, and log lines only for listed
   * hashes.
   */
  lemma {:induction false} WalkBounds(st: ScanState, entries: seq<Entry>, db: Db, hashOf: FileSource -> Option<string>)
    ensures var r := Walk(st, entries, db, hashOf);
            && |st.dirty| <= |r.dirty| <= |st.dirty| + RegularFiles(Reached(entries))
            && |r.log| - |st.log| <= |r.dirty| - |st.dirty|
            && (forall j :: |st.log| <= j < |r.log| ==> Listed(db, r.log[j].hash))
    decreases |entries|
  {
    if |entries| > 0 {
      match Visit(st, entries[0], db, hashOf) {
        case None =>
        case Some(next) =>
          WalkBounds(next, entries[1..], db, hashOf);
          WalkAppends(next, entries[1..], db, hashOf);
          var r := Walk(next, entries[1..], db, hashOf);
          assert forall j :: |st.log| <= j < |next.log| ==> r.log[j] == r.log[..|next.log|][j];
      }
    }
  }

  /** One turn of the scan loop. */
  lemma WalkUnfold(st: ScanState, entries: seq<Entry>, i: nat, db: Db, hashOf: FileSource -> Option<string>)
    requires i < |entries|
    ensures Walk(st, entries[i..], db, hashOf) ==
            match Visit(st, entries[i], db, hashOf)
            case None => st
            case Some(next) => Walk(next, entries[i + 1..], db, hashOf)
  {
    assert entries[i..][0] == entries[i];
    assert entries[i..][1..] == entries[i + 1..];
  }

  /**
   * `search_files`: the counters and the log start empty, `dirty` continues
   * the scanner's `dirty_files`.
   */
  method SearchFiles(dirty: seq<Path>, entries: seq<Entry>, db: Db, maxRam: nat, md5: seq<Byte> -> string)
    returns (r: ScanState)
    ensures r == Walk(ScanState(0, 0, dirty, []), entries, db, Hasher(maxRam, md5))
  {
    var start := ScanState(0, 0, dirty, []);
    ghost var hashOf := Hasher(maxRam, md5);
    r := start;
    var i := 0;
    while i < |entries|
      invariant 0 <= i <= |entries|
      invariant Walk(r, entries[i..], db, hashOf) == Walk(start, entries, db, hashOf)
    {
      WalkUnfold(r, entries, i, db, hashOf);
      match entries[i] {
        case WalkFailed =>
        case NotAFile(_) =>
        case MetadataFailed(_) =>
          return;
        case RegularFile(path, file, fault) =>
          r := ScanFile(r, path, file, fault, db, maxRam, md5);
      }
      i := i + 1;
    }
  }

  /** The body of the scan loop for a regular file: digest it, count it, look it up. */
  method ScanFile(st: ScanState, path: Path, file: FileSource, fault: bool, db: Db, maxRam: nat,
                  md5: seq<Byte> -> string) returns (r: ScanState)
    ensures Visit(st, RegularFile(path, file, fault), db, Hasher(maxRam, md5)) == Some(r)
  {
    r := st;
    var digest := CreateHash(file, maxRam, md5);
    var hash := "";
    if digest.Some? {
      r := r.(analysed := r.analysed + 1);
      hash := digest.value;
    } else {
      r := r.(skipped := r.skipped + 1);
    }
    var listed := false;
    var found := HashExists(db, hash, fault);
    if found.Ok? {
      r := r.(dirty := r.dirty + [path]);
      listed := found.value;
    }
    if listed {
      r := r.(log := r.log + [Match(hash, path)]);
    }
    assert r == Record(st, path, digest, found);
  }

  /**
   * The evidently intended step: a path joins `dirty` exactly when its hash
   * is listed, together with its log line.
   */
  function VisitIntended(st: ScanState, e: Entry, db: Db, hashOf: FileSource -> Option<string>)
    : (v: Option<ScanState>)
    ensures v.None? <==> e.MetadataFailed?
    ensures e.WalkFailed? || e.NotAFile? ==> v == Some(st)
    ensures e.RegularFile? ==>
              var key := LookupKey(hashOf(e.file));
              var found := !e.lookupFault && Listed(db, key);
              && v.Some?
              && v.value.analysed + v.value.skipped == st.analysed + st.skipped + 1
              && v.value.analysed == st.analysed + (if hashOf(e.file).Some? then 1 else 0)
              && v.value.skipped == st.skipped + (if hashOf(e.file).Some? then 0 else 1)
              && v.value.dirty == (if found then st.dirty + [e.path] else st.dirty)
              && v.value.log == (if found then st.log + [Match(key, e.path)] else st.log)
  {
    match e
    case WalkFailed => Some(st)
    case MetadataFailed(_) => None
    case NotAFile(_) => Some(st)
    case RegularFile(path, file, fault) =>
      var digest := hashOf(file);
      var counted := Count(st, digest);
      var key := LookupKey(digest);
      if HashExists(db, key, fault) == Ok(true) then
        Some(counted.(dirty := counted.dirty + [path], log := counted.log + [Match(key, path)]))
      else Some(counted)
  }

  /** A metadata failure ends the scan as it stood before that entry: neither it nor anything after it counts. */
  lemma {:induction false} MetadataFailureStops(st: ScanState, before: seq<Entry>, p: Path, after: seq<Entry>,
                                                db: Db, hashOf: FileSource -> Option<string>)
    ensures Walk(st, before + [MetadataFailed(p)] + after, db, hashOf) == Walk(st, before, db, hashOf)
    decreases |before|
  {
    var whole := before + [MetadataFailed(p)] + after;
    if |before| == 0 {
      assert whole[0] == MetadataFailed(p);
    } else {
      assert whole[0] == before[0];
      assert whole[1..] == before[1..] + [MetadataFailed(p)] + after;
      match Visit(st, before[0], db, hashOf) {
        case None =>
        case Some(next) => MetadataFailureStops(next, before[1..], p, after, db, hashOf);
      }
    }
  }

  /**
   * A readable file whose digest is not listed still lands in `dirty` as
   * written, with no log line; the intended step leaves `dirty` alone.
   */
  lemma CleanFileMarkedDirty(st: ScanState, path: Path, content: seq<Byte>, db: Db, maxRam: nat,
                             md5: seq<Byte> -> string)
    requires 0 < |content| <= maxRam
    requires Signatures in db.tables && md5(content) !in db.tables[Signatures]
    ensures var hashOf := Hasher(maxRam, md5);
            Visit(st, RegularFile(path, Opened(content, []), false), db, hashOf) ==
            Some(st.(analysed := st.analysed + 1, dirty := st.dirty + [path]))
    ensures var hashOf := Hasher(maxRam, md5);
            VisitIntended(st, RegularFile(path, Opened(content, []), false), db, hashOf) ==
            Some(st.(analysed := st.analysed + 1))
  {
    assert ReadFrom(content, [], maxRam, |content|, 1) == Some([]);
    assert ReadAll(content, [], maxRam).Some?;
  }

  /** A file without a digest is looked up as "", so a stored empty row flags it. */
  lemma EmptyKeyLookup(st: ScanState, path: Path, file: FileSource, db: Db, hashOf: FileSource -> Option<string>)
    requires hashOf(file).None?
    requires Listed(db, "")
    ensures Visit(st, RegularFile(path, file, false), db, hashOf) ==
            Some(ScanState(st.analysed, st.skipped + 1, st.dirty + [path], st.log + [Match("", path)]))
  {
  }
}

=== FILE: signature_store.dfy ===
/**
 * The signature store behind `DBOps`: a SQLite database holding one table of
 * MD5 hex strings (`signatures`), a transient backup table (`old`) while an
 * update runs, and at most one secondary index called `idx`.
 *
 * The database is modelled by its logical content only: a map from table name
 * to the rows of that table, in insertion order, and the name of the table
 * the index `idx` is built on, if the index exists.  Every SQL statement may
 * additionally fail inside the engine (disk, lock or corruption errors); each
 * operation takes that as a `fault` oracle.  Errors that follow from the
 * logical state (a missing table, an existing index) are computed.
 */
module SignatureStore {
  import opened Wrappers

  type Hash = string
  type TableName = string

  /** `crate::DB_TABLE`, the active table every query reads. */
  const Signatures: TableName := "signatures"
  /** The name the active table is parked under while an update runs. */
  const Old: TableName := "old"
  /** The largest `u32`, the type `count_hashes` reads the row count into. */
  const U32Max: nat := 0xFFFF_FFFF

  datatype DbError =
    | NoSuchTable(table: TableName)  // the statement names a table that does not exist
    | IndexExists                    // CREATE INDEX without IF NOT EXISTS on an existing `idx`
    | OutOfRange                     // a column value that does not fit the requested integer type
    | IoFault                        // a failure of the engine itself

  /** The logical state of the database file. */
  datatype Db = Db(tables: map<TableName, seq<Hash>>, idx: Option<TableName>)

  /** The state after a statement together with what the statement returned. */
  datatype Step<+T> = Step(db: Db, res: Result<T, DbError>)

  /** Statement faults of `rename`, which issues two statements. */
  datatype RenameFaults = RenameFaults(dropTarget: bool, alter: bool)

  /**
   * Faults of one `insert_hashes` or `remove_hashes` call: the `init_table`
   * statement, opening the transaction, the positions of the rows whose own
   * statement fails, and the commit.
   */
  datatype BatchFaults = BatchFaults(init: bool, begin: bool, rows: set<nat>, commit: bool)

  /** The bookkeeping of a per-row loop: the table's rows, the rows done, the rows skipped. */
  datatype Tally = Tally(rows: seq<Hash>, applied: nat, skipped: nat)

  /** The index, when it exists, is built on a table that exists. */
  predicate Valid(d: Db) {
    d.idx.Some? ==> d.idx.value in d.tables
  }

  /** The rows of table `t`, or none when `t` does not exist. */
  function Rows(d: Db, t: TableName): seq<Hash> {
    if t in d.tables then d.tables[t] else []
  }

  /** The number of rows equal to `h`: what `SELECT COUNT(*) ... WHERE hash = ?` yields. */
  function Occurrences(rows: seq<Hash>, h: Hash): (n: nat)
    ensures n <= |rows|
    ensures n > 0 <==> h in rows
  {
    if |rows| == 0 then 0
    else (if rows[0] == h then 1 else 0) + Occurrences(rows[1..], h)
  }

  /** `rows` with every row equal to `h` deleted: `DELETE ... WHERE hash = ?`. */
  function Purge(rows: seq<Hash>, h: Hash): (r: seq<Hash>)
    ensures multiset(r) == multiset(rows)[h := 0]
    ensures forall x :: x in r <==> x in rows && x != h
    ensures |r| == |rows| - Occurrences(rows, h)
  {
    if |rows| == 0 then []
    else
      var rest := Purge(rows[1..], h);
      assert rows == [rows[0]] + rows[1..];
      (if rows[0] == h then [] else [rows[0]]) + rest
  }

  /**
   * The rows whose value is not in `gone`, in their order: the reference
   * for a batch of deletes.  Every copy of a value in `gone` is removed and
   * every copy of any other value stays.
   */
  function Surviving(rows: seq<Hash>, gone: seq<Hash>): seq<Hash>
  {
    if |rows| == 0 then []
    else (if rows[0] in gone then [] else [rows[0]]) + Surviving(rows[1..], gone)
  }

  /** The survivors hold no copy of a value in `gone` and every copy of any other value. */
  lemma {:induction false} SurvivingCounts(rows: seq<Hash>, gone: seq<Hash>)
    ensures forall x :: multiset(Surviving(rows, gone))[x] == if x in gone then 0 else multiset(rows)[x]
    decreases |rows|
  {
    if |rows| > 0 {
      SurvivingCounts(rows[1..], gone);
      assert rows == [rows[0]] + rows[1..];
    }
  }

  /** A value survives exactly when it was a row and is not in `gone`; no row is added. */
  lemma {:induction false} SurvivingMembers(rows: seq<Hash>, gone: seq<Hash>)
    ensures forall x :: x in Surviving(rows, gone) <==> x in rows && x !in gone
    ensures |Surviving(rows, gone)| <= |rows|
    decreases |rows|
  {
    if |rows| > 0 {
      SurvivingMembers(rows[1..], gone);
      assert rows == [rows[0]] + rows[1..];
    }
  }

  /** Deleting one more value from the survivors is the same as having it in `gone` from the start. */
  lemma {:induction false} SurvivingPurge(rows: seq<Hash>, gone: seq<Hash>, h: Hash)
    ensures Purge(Surviving(rows, gone), h) == Surviving(rows, gone + [h])
    decreases |rows|
  {
    if |rows| > 0 {
      SurvivingPurge(rows[1..], gone, h);
      var head := if rows[0] in gone then [] else [rows[0]];
      var rest := Surviving(rows[1..], gone);
      assert Surviving(rows, gone) == head + rest;
      if head == [] {
        assert Surviving(rows, gone) == rest;
      } else {
        assert (head + rest)[0] == rows[0] && (head + rest)[1..] == rest;
      }
    }
  }

  /** When no value in `gone` is a row, nothing is removed. */
  lemma {:induction false} SurvivingAll(rows: seq<Hash>, gone: seq<Hash>)
    requires forall x :: x in gone ==> x !in rows
    ensures Surviving(rows, gone) == rows
    decreases |rows|
  {
    if |rows| > 0 {
      assert rows[0] in rows;
      SurvivingAll(rows[1..], gone);
      assert rows == [rows[0]] + rows[1..];
    }
  }

  /** The number of statements among the first `n` of a batch that succeed. */
  function Accepted(n: nat, faults: set<nat>): (k: nat)
    ensures k <= n
  {
    if n == 0 then 0
    else Accepted(n - 1, faults) + (if n - 1 in faults then 0 else 1)
  }

  /** `h` is one of the rows of the batch whose statement succeeds. */
  ghost predicate Offered(hashes: seq<Hash>, faults: set<nat>, h: Hash) {
    exists i :: 0 <= i < |hashes| && i !in faults && hashes[i] == h
  }

  /** The rows of the batch whose statement succeeds, in batch order. */
  function Kept(hashes: seq<Hash>, faults: set<nat>): (k: seq<Hash>)
    ensures |k| == Accepted(|hashes|, faults)
    decreases |hashes|
  {
    if |hashes| == 0 then []
    else
      var n := |hashes| - 1;
      Kept(hashes[..n], faults) + (if n in faults then [] else [hashes[n]])
  }

  /** A row is kept exactly when some statement offering it succeeds. */
  lemma {:induction false} KeptMembers(hashes: seq<Hash>, faults: set<nat>)
    ensures forall h :: h in Kept(hashes, faults) <==> Offered(hashes, faults, h)
    decreases |hashes|
  {
    if |hashes| > 0 {
      var n := |hashes| - 1;
      var prefix := hashes[..n];
      KeptMembers(prefix, faults);
      forall h | Offered(hashes, faults, h)
        ensures h in Kept(hashes, faults)
      {
        var i :| 0 <= i < |hashes| && i !in faults && hashes[i] == h;
        if i < n {
          assert prefix[i] == h;
        }
      }
      forall h | h in Kept(hashes, faults)
        ensures Offered(hashes, faults, h)
      {
        if h in Kept(prefix, faults) {
          var i :| 0 <= i < n && i !in faults && prefix[i] == h;
          assert hashes[i] == h;
        }
      }
    }
  }

  /** The state without table `t` (SQLite drops the table's index with it). */
  function Without(d: Db, t: TableName): Db {
    Db(d.tables - {t}, if d.idx == Some(t) then None else d.idx)
  }

  /** `CREATE TABLE IF NOT EXISTS signatures (hash varchar(32))`. */
  function InitTable(d: Db, fault: bool): (r: Step<()>)
    ensures r.res.Ok? <==> !fault
    ensures r.res.Ok? ==> Signatures in r.db.tables
    ensures Rows(r.db, Signatures) == Rows(d, Signatures)
    ensures r.db.tables - {Signatures} == d.tables - {Signatures}
    ensures r.db.idx == d.idx
    ensures Signatures in d.tables ==> r.db == d
    ensures Valid(d) ==> Valid(r.db)
  {
    if fault then Step(d, Err(IoFault))
    else if Signatures in d.tables then Step(d, Ok(()))
    else Step(d.(tables := d.tables[Signatures := []]), Ok(()))
  }

  /** `CREATE INDEX idx ON signatures (hash)`: fails on a missing table and on an existing index. */
  function CreateIndex(d: Db, fault: bool): (r: Step<()>)
    ensures r.res.Ok? <==> !fault && Signatures in d.tables && d.idx.None?
    ensures r.res.Ok? ==> r.db == d.(idx := Some(Signatures))
    ensures r.res.Err? ==> r.db == d
    ensures !fault && Signatures in d.tables && d.idx.Some? ==> r.res == Err(IndexExists)
    ensures !fault && Signatures !in d.tables ==> r.res == Err(NoSuchTable(Signatures))
    ensures Valid(d) ==> Valid(r.db)
  {
    if fault then Step(d, Err(IoFault))
    else if Signatures !in d.tables then Step(d, Err(NoSuchTable(Signatures)))
    else if d.idx.Some? then Step(d, Err(IndexExists))
    else Step(d.(idx := Some(Signatures)), Ok(()))
  }

  /** `DROP INDEX IF EXISTS idx`: an absent index is not an error. */
  function DropIndex(d: Db, fault: bool): (r: Step<()>)
    ensures r.res.Ok? <==> !fault
    ensures r.res.Ok? ==> r.db.idx.None? && r.db.tables == d.tables
    ensures r.res.Err? ==> r.db == d
    ensures Valid(d) ==> Valid(r.db)
  {
    if fault then Step(d, Err(IoFault)) else Step(d.(idx := None), Ok(()))
  }

  /** `DROP TABLE t`: fails when `t` does not exist. */
  function Drop(d: Db, t: TableName, fault: bool): (r: Step<()>)
    ensures r.res.Ok? <==> !fault && t in d.tables
    ensures r.res.Ok? ==> r.db.tables == d.tables - {t}
    ensures r.res.Ok? ==> r.db.idx == if d.idx == Some(t) then None else d.idx
    ensures r.res.Err? ==> r.db == d
    ensures !fault && t !in d.tables ==> r.res == Err(NoSuchTable(t))
    ensures Valid(d) ==> Valid(r.db)
  {
    if fault then Step(d, Err(IoFault))
    else if t !in d.tables then Step(d, Err(NoSuchTable(t)))
    else Step(Without(d, t), Ok(()))
  }

  /** `DROP TABLE IF EXISTS t`: a missing `t` is not an error. */
  function DropIfExists(d: Db, t: TableName, fault: bool): (r: Step<()>)
    ensures r.res.Ok? <==> !fault
    ensures r.res.Ok? ==> r.db.tables == d.tables - {t}
    ensures r.res.Ok? ==> r.db.idx == if d.idx == Some(t) then None else d.idx
    ensures r.res.Err? ==> r.db == d
    ensures Valid(d) ==> Valid(r.db)
  {
    if fault then Step(d, Err(IoFault)) else Step(Without(d, t), Ok(()))
  }

  /** `VACUUM`: rebuilds the file; the logical content is unchanged. */
  function Vacuum(d: Db, fault: bool): (r: Step<()>)
    ensures r.res.Ok? <==> !fault
    ensures r.db == d
  {
    if fault then Step(d, Err(IoFault)) else Step(d, Ok(()))
  }

  /**
   * `rename(a, b)`: `DROP TABLE IF EXISTS b`, then `ALTER TABLE a RENAME TO b`.
   * The index follows its table.  When the ALTER fails, `b` is already gone.
   */
  function Rename(d: Db, a: TableName, b: TableName, f: RenameFaults): (r: Step<()>)
    ensures r.res.Ok? <==> !f.dropTarget && !f.alter && a in d.tables && a != b
    ensures r.res.Ok? ==> a in d.tables && r.db.tables == (d.tables - {a, b})[b := d.tables[a]]
    ensures r.res.Ok? ==>
              r.db.idx == if d.idx == Some(a) then Some(b) else if d.idx == Some(b) then None else d.idx
    ensures f.dropTarget ==> r.db == d
    ensures !f.dropTarget && r.res.Err? ==> r.db == Without(d, b)
    ensures !f.dropTarget && !f.alter && (a !in d.tables || a == b) ==> r.res == Err(NoSuchTable(a))
    ensures Valid(d) ==> Valid(r.db)
  {
    var dropped := DropIfExists(d, b, f.dropTarget);
    if dropped.res.Err? then dropped
    else
      var e := dropped.db;
      if f.alter then Step(e, Err(IoFault))
      else if a !in e.tables then Step(e, Err(NoSuchTable(a)))
      else Step(Db((e.tables - {a})[b := e.tables[a]], if e.idx == Some(a) then Some(b) else e.idx), Ok(()))
  }

  /**
   * The per-row loop of `insert_hashes`: each statement that succeeds appends
   * its row and counts as applied, each one that fails counts as skipped.
   */
  function InsertRows(rows: seq<Hash>, hashes: seq<Hash>, faults: set<nat>): (t: Tally)
    ensures t.applied + t.skipped == |hashes|
    ensures t.applied == Accepted(|hashes|, faults)
    ensures t.rows == rows + Kept(hashes, faults)
    decreases |hashes|
  {
    if |hashes| == 0 then Tally(rows, 0, 0)
    else
      var n := |hashes| - 1;
      var t := InsertRows(rows, hashes[..n], faults);
      if n in faults then Tally(t.rows, t.applied, t.skipped + 1)
      else Tally(t.rows + [hashes[n]], t.applied + 1, t.skipped)
  }

  /**
   * The per-row loop of `remove_hashes`: each statement that succeeds deletes
   * every equal row.  The rows left are the old rows, in order, less every
   * copy of a value some succeeding statement names.
   */
  function RemoveRows(rows: seq<Hash>, hashes: seq<Hash>, faults: set<nat>): (t: Tally)
    ensures t.applied + t.skipped == |hashes|
    ensures t.applied == Accepted(|hashes|, faults)
    ensures t.rows == Surviving(rows, Kept(hashes, faults))
    decreases |hashes|
  {
    if |hashes| == 0 then
      SurvivingAll(rows, []);
      Tally(rows, 0, 0)
    else
      var n := |hashes| - 1;
      var t := RemoveRows(rows, hashes[..n], faults);
      if n in faults then
        assert Kept(hashes, faults) == Kept(hashes[..n], faults) + [];
        assert Kept(hashes, faults) == Kept(hashes[..n], faults);
        Tally(t.rows, t.applied, t.skipped + 1)
      else
        SurvivingPurge(rows, Kept(hashes[..n], faults), hashes[n]);
        assert Kept(hashes, faults) == Kept(hashes[..n], faults) + [hashes[n]];
        Tally(Purge(t.rows, hashes[n]), t.applied + 1, t.skipped)
  }

  /** The rows the remove loop leaves, value by value: none of a named value, all copies of the others. */
  lemma RemoveRowsCounts(rows: seq<Hash>, hashes: seq<Hash>, faults: set<nat>)
    ensures var t := RemoveRows(rows, hashes, faults);
            && (forall x :: multiset(t.rows)[x] == if Offered(hashes, faults, x) then 0 else multiset(rows)[x])
            && (forall x :: x in t.rows <==> x in rows && !Offered(hashes, faults, x))
            && |t.rows| <= |rows|
  {
    var t := RemoveRows(rows, hashes, faults);
    KeptMembers(hashes, faults);
    SurvivingCounts(rows, Kept(hashes, faults));
    SurvivingMembers(rows, Kept(hashes, faults));
  }

  /**
   * `insert_hashes`: makes sure the table exists, then tries every hash in
   * order inside one transaction, counting a failing row as skipped, and
   * commits.  Returns the number of rows inserted.
   */
  function InsertHashes(d: Db, hashes: seq<Hash>, f: BatchFaults): (r: Step<nat>)
    ensures r.res.Ok? <==> !f.init && !f.begin && !f.commit
    ensures r.res.Ok? ==> r.res.value == Accepted(|hashes|, f.rows) <= |hashes|
    ensures r.res.Ok? ==> Rows(r.db, Signatures) == Rows(d, Signatures) + Kept(hashes, f.rows)
    ensures r.res.Ok? ==>
              var before, after := Rows(d, Signatures), Rows(r.db, Signatures);
              |after| == |before| + r.res.value && after[..|before|] == before
    ensures r.res.Ok? ==>
              forall i :: 0 <= i < |hashes| && i !in f.rows ==> hashes[i] in Rows(r.db, Signatures)
    ensures r.res.Ok? ==>
              forall h :: h in Rows(r.db, Signatures) ==> h in Rows(d, Signatures) || Offered(hashes, f.rows, h)
    ensures r.res.Err? ==> Rows(r.db, Signatures) == Rows(d, Signatures)
    ensures !f.init ==> Signatures in r.db.tables
    ensures r.db.tables - {Signatures} == d.tables - {Signatures}
    ensures r.db.idx == d.idx
    ensures Valid(d) ==> Valid(r.db)
  {
    var init := InitTable(d, f.init);
    if init.res.Err? then Step(init.db, Err(init.res.error))
    else if f.begin then Step(init.db, Err(IoFault))
    else
      var t := InsertRows(init.db.tables[Signatures], hashes, f.rows);
      KeptMembers(hashes, f.rows);
      if f.commit then Step(init.db, Err(IoFault))
      else Step(init.db.(tables := init.db.tables[Signatures := t.rows]), Ok(t.applied))
  }

  /**
   * `remove_hashes`: like `insert_hashes`, but each statement deletes every
   * row equal to its hash.  The count is of statements that succeeded, so a
   * hash with no row still counts as removed.
   */
  function RemoveHashes(d: Db, hashes: seq<Hash>, f: BatchFaults): (r: Step<nat>)
    ensures r.res.Ok? <==> !f.init && !f.begin && !f.commit
    ensures r.res.Ok? ==> r.res.value == Accepted(|hashes|, f.rows) <= |hashes|
    ensures r.res.Ok? ==> Rows(r.db, Signatures) == Surviving(Rows(d, Signatures), Kept(hashes, f.rows))
    ensures r.res.Err? ==> Rows(r.db, Signatures) == Rows(d, Signatures)
    ensures !f.init ==> Signatures in r.db.tables
    ensures r.db.tables - {Signatures} == d.tables - {Signatures}
    ensures r.db.idx == d.idx
    ensures Valid(d) ==> Valid(r.db)
  {
    var init := InitTable(d, f.init);
    if init.res.Err? then Step(init.db, Err(init.res.error))
    else if f.begin then Step(init.db, Err(IoFault))
    else
      var t := RemoveRows(init.db.tables[Signatures], hashes, f.rows);
      if f.commit then Step(init.db, Err(IoFault))
      else Step(init.db.(tables := init.db.tables[Signatures := t.rows]), Ok(t.applied))
  }

  /**
   * After a successful remove, value by value: no copy of a hash whose
   * statement succeeded is left, and every other value keeps all its copies.
   */
  lemma RemoveHashesCounts(d: Db, hashes: seq<Hash>, f: BatchFaults)
    ensures var r := RemoveHashes(d, hashes, f);
            r.res.Ok? ==>
              && (forall x :: multiset(Rows(r.db, Signatures))[x] ==
                                if Offered(hashes, f.rows, x) then 0 else multiset(Rows(d, Signatures))[x])
              && (forall x :: x in Rows(r.db, Signatures) <==> x in Rows(d, Signatures) && !Offered(hashes, f.rows, x))
              && |Rows(r.db, Signatures)| <= |Rows(d, Signatures)|
  {
    var r := RemoveHashes(d, hashes, f);
    if r.res.Ok? {
      var init := InitTable(d, f.init);
      assert Rows(init.db, Signatures) == Rows(d, Signatures);
      RemoveRowsCounts(Rows(d, Signatures), hashes, f.rows);
    }
  }

  /** `hash_exists`: counts the rows equal to `h` and reports whether there is one. */
  function HashExists(d: Db, h: Hash, fault: bool): (r: Result<bool, DbError>)
    ensures r.Ok? <==> !fault && Signatures in d.tables
    ensures r.Ok? ==> (r.value <==> h in d.tables[Signatures])
    ensures !fault && Signatures !in d.tables ==> r == Err(NoSuchTable(Signatures))
  {
    if fault then Err(IoFault)
    else if Signatures !in d.tables then Err(NoSuchTable(Signatures))
    else Ok(Occurrences(d.tables[Signatures], h) > 0)
  }

  /** `count_hashes`: the number of rows, duplicates included, read as a `u32`. */
  function CountHashes(d: Db, fault: bool): (r: Result<nat, DbError>)
    ensures r.Ok? <==> !fault && Signatures in d.tables && |d.tables[Signatures]| <= U32Max
    ensures r.Ok? ==> r.value == |d.tables[Signatures]|
    ensures !fault && Signatures in d.tables && |d.tables[Signatures]| > U32Max ==> r == Err(OutOfRange)
  {
    if fault then Err(IoFault)
    else if Signatures !in d.tables then Err(NoSuchTable(Signatures))
    else if |d.tables[Signatures]| > U32Max then Err(OutOfRange)
    else Ok(|d.tables[Signatures]|)
  }

  /** Calling `init_table` a second time changes nothing. */
  lemma InitTableIdempotent(d: Db)
    ensures var once := InitTable(d, false);
            InitTable(once.db, false) == once
  {
  }

  /** Lookups and counts do not depend on whether the index exists. */
  lemma IndexTransparent(d: Db, ix: Option<TableName>, h: Hash, fault: bool)
    ensures HashExists(d.(idx := ix), h, fault) == HashExists(d, h, fault)
    ensures CountHashes(d.(idx := ix), fault) == CountHashes(d, fault)
  {
  }

  /** Dropping the index and building it again leaves the index on `signatures`. */
  lemma IndexToggle(d: Db)
    requires Signatures in d.tables
    ensures var dropped := DropIndex(d, false);
            CreateIndex(dropped.db, false) == Step(d.(idx := Some(Signatures)), Ok(()))
  {
  }

  /** Renaming a table away and back restores it; whatever was under the second name is gone. */
  lemma RenameRoundTrip(d: Db, a: TableName, b: TableName)
    requires a in d.tables && a != b
    ensures var there := Rename(d, a, b, RenameFaults(false, false));
            var back := Rename(there.db, b, a, RenameFaults(false, false));
            back.res.Ok? && back.db.tables == d.tables - {b}
  {
    var there := Rename(d, a, b, RenameFaults(false, false));
    assert b in there.db.tables;
  }

  /** Every hash a successful insert accepted is found afterwards; a hash never stored is not. */
  lemma InsertThenLookup(d: Db, hashes: seq<Hash>, f: BatchFaults, h: Hash)
    requires InsertHashes(d, hashes, f).res.Ok?
    ensures var after := InsertHashes(d, hashes, f).db;
            HashExists(after, h, false) == Ok(h in Rows(d, Signatures) || Offered(hashes, f.rows, h))
  {
    var after := InsertHashes(d, hashes, f).db;
    if Offered(hashes, f.rows, h) {
      var i :| 0 <= i < |hashes| && i !in f.rows && hashes[i] == h;
      assert hashes[i] in Rows(after, Signatures);
    }
    if h in Rows(d, Signatures) {
      var before := Rows(d, Signatures);
      var j :| 0 <= j < |before| && before[j] == h;
      assert Rows(after, Signatures)[..|before|][j] == h;
    }
  }

  /** A successful insert raises the count by exactly the number of rows it reports. */
  lemma InsertThenCount(d: Db, hashes: seq<Hash>, f: BatchFaults)
    requires Signatures in d.tables
    requires InsertHashes(d, hashes, f).res.Ok?
    requires |Rows(d, Signatures)| + |hashes| <= U32Max
    ensures var r := InsertHashes(d, hashes, f);
            CountHashes(r.db, false) == Ok(CountHashes(d, false).value + r.res.value)
  {
  }

  /** After a successful remove, no hash whose statement succeeded is found any more. */
  lemma RemoveThenLookup(d: Db, hashes: seq<Hash>, f: BatchFaults, i: nat)
    requires RemoveHashes(d, hashes, f).res.Ok?
    requires i < |hashes| && i !in f.rows
    ensures HashExists(RemoveHashes(d, hashes, f).db, hashes[i], false) == Ok(false)
  {
    RemoveHashesCounts(d, hashes, f);
    assert Offered(hashes, f.rows, hashes[i]);
  }

  /** A remove whose statements name no stored row leaves every row, and so the count, as it was. */
  lemma RemoveMissKeepsRows(d: Db, hashes: seq<Hash>, f: BatchFaults)
    requires forall x :: x in Rows(d, Signatures) ==> !Offered(hashes, f.rows, x)
    ensures Rows(RemoveHashes(d, hashes, f).db, Signatures) == Rows(d, Signatures)
    ensures CountHashes(RemoveHashes(d, hashes, f).db, false) == CountHashes(d, false) || Signatures !in d.tables
  {
    KeptMembers(hashes, f.rows);
    SurvivingAll(Rows(d, Signatures), Kept(hashes, f.rows));
  }
}

=== FILE: store_update.dfy ===
/**
 * `DBOps::update_db`: the full replacement of the signature table.
 *
 * The protocol parks `signatures` under the name `old`, fills a fresh
 * `signatures` from the downloaded files, and then either rolls back (drop
 * the new table, rename `old` back) or commits (drop `old`, drop the index,
 * vacuum, rebuild the index, count).  The record source (`index`,
 * `download_all`) and `insert_all` are outside the store; they are modelled
 * by a `RecordSource` oracle, and `insert_all` by a fold of `insert_hashes`
 * over the downloaded files that stops at the first failure.
 */
module StoreUpdate {
  import opened Wrappers
  import opened SignatureStore

  /** One downloaded signature file as the insert step meets it. */
  datatype Download =
    | Unreadable                                  // the file could not be read
    | Batch(hashes: seq<Hash>, faults: BatchFaults) // its hashes, and how their insert fares

  /** The outcome of `index()`, of `download_all`, and the files downloaded. */
  datatype RecordSource = RecordSource(indexed: bool, downloaded: bool, files: seq<Download>)

  /** Statement faults of every store call `update_db` makes, in program order. */
  datatype UpdateFaults = UpdateFaults(
    backup: RenameFaults,
    undoDrop: bool,
    undoRename: RenameFaults,
    dropOld: bool,
    dropIndex: bool,
    vacuum: bool,
    createIndex: bool,
    count: bool)

  datatype UpdateError =
    | IndexFailed          // `index()` failed
    | DownloadFailed       // `download_all` failed
    | ReadFailed           // a downloaded file could not be read while inserting
    | Store(cause: DbError)

  /** The step of the protocol at which an update ended. */
  datatype Exit =
    | SourceFailed     // fetching the records failed; the store was not touched
    | BackupFailed     // renaming `signatures` to `old` failed
    | RolledBack       // the insert failed and both compensating steps succeeded
    | RollbackAborted  // the insert failed and a compensating step failed too
    | CommitFailed     // a step after a successful insert failed
    | Committed

  datatype Update = Update(db: Db, res: Result<nat, UpdateError>, exit: Exit)

  /** The state after the insert step, and how it went. */
  datatype Fill = Fill(db: Db, res: Result<(), UpdateError>)

  /** The protocol up to the end of the insert step. */
  datatype Staged = Stopped(u: Update) | Filled(db: Db, fill: Result<(), UpdateError>)

  /** `h` is a row of some readable downloaded file whose insert statement succeeds. */
  ghost predicate Supplied(files: seq<Download>, h: Hash) {
    exists k :: 0 <= k < |files| && files[k].Batch? && Offered(files[k].hashes, files[k].faults.rows, h)
  }

  /** Every row of every readable file whose insert statement succeeds is in `rows`. */
  ghost predicate Holds(rows: seq<Hash>, files: seq<Download>) {
    forall k, i ::
      (0 <= k < |files| && files[k].Batch? && 0 <= i < |files[k].hashes| && i !in files[k].faults.rows)
      ==> files[k].hashes[i] in rows
  }

  /**
   * The rows the downloaded files contribute, in order: for each readable
   * file, the hashes whose insert statement succeeds.
   */
  function Downloaded(files: seq<Download>): seq<Hash>
    decreases |files|
  {
    if |files| == 0 then []
    else
      var first := if files[0].Batch? then Kept(files[0].hashes, files[0].faults.rows) else [];
      first + Downloaded(files[1..])
  }

  lemma AppendAssoc(a: seq<Hash>, b: seq<Hash>, c: seq<Hash>)
    ensures (a + b) + c == a + (b + c)
  {
  }

  lemma PrefixKeepsRows(a: seq<Hash>, b: seq<Hash>)
    requires |a| <= |b| && b[..|a|] == a
    ensures forall h :: h in a ==> h in b
  {
    forall h | h in a ensures h in b {
      var j :| 0 <= j < |a| && a[j] == h;
      assert b[..|a|][j] == h;
    }
  }

  /** The insert step: `insert_hashes` on each downloaded file in order, stopping at the first failure. */
  function InsertAll(d: Db, files: seq<Download>): (r: Fill)
    ensures r.db.tables - {Signatures} == d.tables - {Signatures}
    ensures r.db.idx == d.idx
    ensures r.res.Err? ==> r.res.error == ReadFailed || r.res.error.Store?
    ensures Valid(d) ==> Valid(r.db)
    decreases |files|
  {
    if |files| == 0 then Fill(d, Ok(()))
    else match files[0]
      case Unreadable => Fill(d, Err(ReadFailed))
      case Batch(hashes, faults) =>
        var ins := InsertHashes(d, hashes, faults);
        if ins.res.Err? then Fill(ins.db, Err(Store(ins.res.error)))
        else InsertAll(ins.db, files[1..])
  }

  /**
   * A successful insert step appends to the rows that were there exactly the
   * rows of the files whose statement succeeds, in file order, and nothing
   * else.
   */
  lemma {:induction false} InsertAllRows(d: Db, files: seq<Download>)
    ensures var fill := InsertAll(d, files);
            fill.res.Ok? ==> Rows(fill.db, Signatures) == Rows(d, Signatures) + Downloaded(files)
    decreases |files|
  {
    if |files| == 0 {
      assert Rows(d, Signatures) + [] == Rows(d, Signatures);
    } else if InsertAll(d, files).res.Ok? {
      var Batch(hashes, faults) := files[0];
      var ins := InsertHashes(d, hashes, faults);
      var rest := files[1..];
      assert ins.res.Ok? && InsertAll(d, files) == InsertAll(ins.db, rest);
      InsertAllRows(ins.db, rest);
      var before, added, later := Rows(d, Signatures), Kept(hashes, faults.rows), Downloaded(rest);
      assert Rows(ins.db, Signatures) == before + added;
      assert Downloaded(files) == added + later;
      AppendAssoc(before, added, later);
    }
  }

  /** A value is downloaded exactly when it is supplied, and every supplied row is downloaded. */
  lemma {:induction false} DownloadedMembers(files: seq<Download>)
    ensures forall h :: h in Downloaded(files) <==> Supplied(files, h)
    ensures Holds(Downloaded(files), files)
    decreases |files|
  {
    if |files| > 0 {
      var rest := files[1..];
      DownloadedMembers(rest);
      var first := if files[0].Batch? then Kept(files[0].hashes, files[0].faults.rows) else [];
      assert Downloaded(files) == first + Downloaded(rest);
      if files[0].Batch? {
        KeptMembers(files[0].hashes, files[0].faults.rows);
      }
      forall h | Supplied(files, h) ensures h in Downloaded(files) {
        var k :| 0 <= k < |files| && files[k].Batch? && Offered(files[k].hashes, files[k].faults.rows, h);
        if k > 0 {
          assert files[k] == rest[k - 1];
        }
      }
      forall h | h in Downloaded(files) ensures Supplied(files, h) {
        if h !in first {
          var k :| 0 <= k < |rest| && rest[k].Batch? && Offered(rest[k].hashes, rest[k].faults.rows, h);
          assert files[k + 1] == rest[k];
        }
      }
      forall k, i | 0 <= k < |files| && files[k].Batch? && 0 <= i < |files[k].hashes| &&
                    i !in files[k].faults.rows
        ensures files[k].hashes[i] in Downloaded(files)
      {
        if k == 0 {
          assert Offered(files[0].hashes, files[0].faults.rows, files[0].hashes[i]);
        } else {
          assert files[k] == rest[k - 1];
        }
      }
    }
  }

  /**
   * A successful insert step keeps the rows that were there, adds every row
   * of the files whose statement succeeds, and adds nothing else, value by
   * value; `InsertAllRows` states the rows themselves.
   */
  lemma InsertAllContents(d: Db, files: seq<Download>)
    ensures var fill := InsertAll(d, files);
            var after := Rows(fill.db, Signatures);
            fill.res.Ok? ==>
              && after == Rows(d, Signatures) + Downloaded(files)
              && (forall h :: h in Rows(d, Signatures) ==> h in after)
              && (forall h :: h in after ==> h in Rows(d, Signatures) || Supplied(files, h))
              && Holds(after, files)
  {
    InsertAllRows(d, files);
    DownloadedMembers(files);
  }

  /** Fetching the records, parking `signatures` under `old`, and filling a fresh table. */
  function Stage(d: Db, src: RecordSource, f: UpdateFaults): (s: Staged)
    ensures s.Stopped? ==> s.u.res.Err? && (s.u.exit == SourceFailed || s.u.exit == BackupFailed)
    ensures s.Stopped? && s.u.exit == SourceFailed <==> !src.indexed || !src.downloaded
    ensures s.Stopped? && s.u.exit == SourceFailed ==> s.u.db == d
    ensures s.Stopped? && Signatures in d.tables ==> Signatures in s.u.db.tables
    ensures Valid(d) ==> Valid(if s.Stopped? then s.u.db else s.db)
    ensures s.Filled? ==>
              && Signatures in d.tables
              && Old in s.db.tables && s.db.tables[Old] == d.tables[Signatures]
              && s.db.tables - {Signatures, Old} == d.tables - {Signatures, Old}
              && s.db.idx == if d.idx == Some(Signatures) then Some(Old)
                             else if d.idx == Some(Old) then None else d.idx
    ensures s.Filled? && s.fill.Ok? ==>
              && Rows(s.db, Signatures) == Downloaded(src.files)
              && (forall h :: h in Rows(s.db, Signatures) ==> Supplied(src.files, h))
              && Holds(Rows(s.db, Signatures), src.files)
  {
    if !src.indexed then Stopped(Update(d, Err(IndexFailed), SourceFailed))
    else if !src.downloaded then Stopped(Update(d, Err(DownloadFailed), SourceFailed))
    else
      var backup := Rename(d, Signatures, Old, f.backup);
      if backup.res.Err? then Stopped(Update(backup.db, Err(Store(backup.res.error)), BackupFailed))
      else
        var fill := InsertAll(backup.db, src.files);
        assert fill.db.tables - {Signatures} == backup.db.tables - {Signatures};
        assert Old in fill.db.tables - {Signatures};
        assert fill.db.tables - {Signatures, Old} == (fill.db.tables - {Signatures}) - {Old};
        assert backup.db.tables - {Signatures, Old} == d.tables - {Signatures, Old};
        if fill.res.Ok? then InsertAllContents(backup.db, src.files); Filled(fill.db, fill.res)
        else Filled(fill.db, fill.res)
  }

  /**
   * The compensating branch as written: `drop("signatures")`, which fails
   * when the fresh table does not exist, then `rename("old", "signatures")`.
   * A failing step's own error replaces the insert step's error.
   */
  function Rollback(d: Db, cause: UpdateError, f: UpdateFaults): (u: Update)
    ensures u.res.Err?
    ensures u.exit == RolledBack || u.exit == RollbackAborted
    ensures u.exit == RolledBack <==>
              !f.undoDrop && Signatures in d.tables && !f.undoRename.dropTarget && !f.undoRename.alter && Old in d.tables
    ensures u.exit == RolledBack ==>
              Old in d.tables && u.res == Err(cause) && u.db.tables == (d.tables - {Old})[Signatures := d.tables[Old]]
    ensures u.exit == RolledBack ==>
              u.db.idx == if d.idx == Some(Old) then Some(Signatures)
                          else if d.idx == Some(Signatures) then None else d.idx
    ensures u.exit == RollbackAborted ==> u.res.error.Store?
    ensures Old in d.tables && u.exit == RollbackAborted ==> Old in u.db.tables && u.db.tables[Old] == d.tables[Old]
    ensures !f.undoDrop && Signatures !in d.tables ==>
              u == Update(d, Err(Store(NoSuchTable(Signatures))), RollbackAborted)
    ensures Valid(d) ==> Valid(u.db)
  {
    var undo := Drop(d, Signatures, f.undoDrop);
    if undo.res.Err? then Update(undo.db, Err(Store(undo.res.error)), RollbackAborted)
    else
      var back := Rename(undo.db, Old, Signatures, f.undoRename);
      if back.res.Err? then Update(back.db, Err(Store(back.res.error)), RollbackAborted)
      else Update(back.db, Err(cause), RolledBack)
  }

  /** The branch after a successful insert: drop `old`, drop the index, vacuum, rebuild the index, count. */
  function Commit(d: Db, f: UpdateFaults): (u: Update)
    ensures u.exit == Committed || u.exit == CommitFailed
    ensures u.res.Ok? <==> u.exit == Committed
    ensures u.exit == Committed <==>
              && !f.dropOld && !f.dropIndex && !f.vacuum && !f.createIndex && !f.count
              && Old in d.tables && Signatures in d.tables && |d.tables[Signatures]| <= U32Max
    ensures u.exit == Committed ==>
              Signatures in d.tables && u.db == Db(d.tables - {Old}, Some(Signatures)) &&
              u.res.value == |d.tables[Signatures]|
    ensures Rows(u.db, Signatures) == Rows(d, Signatures)
    ensures Valid(d) ==> Valid(u.db)
  {
    var dropped := Drop(d, Old, f.dropOld);
    if dropped.res.Err? then Update(dropped.db, Err(Store(dropped.res.error)), CommitFailed)
    else
      var unindexed := DropIndex(dropped.db, f.dropIndex);
      if unindexed.res.Err? then Update(unindexed.db, Err(Store(unindexed.res.error)), CommitFailed)
      else
        var vacuumed := Vacuum(unindexed.db, f.vacuum);
        if vacuumed.res.Err? then Update(vacuumed.db, Err(Store(vacuumed.res.error)), CommitFailed)
        else
          var indexed := CreateIndex(vacuumed.db, f.createIndex);
          if indexed.res.Err? then Update(indexed.db, Err(Store(indexed.res.error)), CommitFailed)
          else
            var count := CountHashes(indexed.db, f.count);
            if count.Err? then Update(indexed.db, Err(Store(count.error)), CommitFailed)
            else Update(indexed.db, Ok(count.value), Committed)
  }

  /** `update_db` as written. */
  function UpdateDb(d: Db, src: RecordSource, f: UpdateFaults): (u: Update)
    ensures u.res.Ok? <==> u.exit == Committed
    ensures u.exit == SourceFailed <==> !src.indexed || !src.downloaded
    ensures u.exit == SourceFailed ==> u.db == d
    ensures u.exit == Committed ==>
              && Signatures in u.db.tables && Old !in u.db.tables
              && u.db.idx == Some(Signatures)
              && u.res.value == |u.db.tables[Signatures]|
              && u.db.tables - {Signatures} == d.tables - {Signatures, Old}
    ensures u.exit == Committed ==>
              && u.db.tables[Signatures] == Downloaded(src.files)
              && u.res.value == |Downloaded(src.files)|
              && (forall h :: h in u.db.tables[Signatures] ==> Supplied(src.files, h))
              && Holds(u.db.tables[Signatures], src.files)
    ensures Valid(d) ==> Valid(u.db)
  {
    match Stage(d, src, f)
    case Stopped(u) => u
    case Filled(filled, fill) =>
      if fill.Err? then Rollback(filled, fill.error, f)
      else Commit(filled, f)
  }

  /**
   * When the insert step fails, a complete rollback gives back the store as
   * it was, less any stale `old`; an aborted one leaves the backup under
   * `old`.
   */
  lemma UpdateDbRollsBack(d: Db, src: RecordSource, f: UpdateFaults)
    ensures var u := UpdateDb(d, src, f);
            u.exit == RolledBack ==>
              && Signatures in d.tables && u.res.Err?
              && u.db.tables == d.tables - {Old}
              && u.db.idx == if d.idx == Some(Old) then None else d.idx
    ensures var u := UpdateDb(d, src, f);
            u.exit == RollbackAborted ==>
              && Signatures in d.tables && u.res.Err? && u.res.error.Store?
              && Old in u.db.tables && u.db.tables[Old] == d.tables[Signatures]
  {
    var u := UpdateDb(d, src, f);
    if u.exit == RolledBack {
      assert u.db.tables == d.tables - {Old};
    }
  }

  /** The compensating branch with `DROP TABLE IF EXISTS`, so a missing fresh table does not stop it. */
  function RollbackIntended(d: Db, cause: UpdateError, f: UpdateFaults): (u: Update)
    ensures u.res.Err?
    ensures u.exit == RolledBack || u.exit == RollbackAborted
    ensures u.exit == RolledBack <==>
              !f.undoDrop && !f.undoRename.dropTarget && !f.undoRename.alter && Old in d.tables
    ensures u.exit == RolledBack ==>
              Old in d.tables && u.res == Err(cause) && u.db.tables == (d.tables - {Old})[Signatures := d.tables[Old]]
    ensures Old in d.tables && u.exit == RollbackAborted ==> Old in u.db.tables && u.db.tables[Old] == d.tables[Old]
    ensures Valid(d) ==> Valid(u.db)
  {
    var undo := DropIfExists(d, Signatures, f.undoDrop);
    if undo.res.Err? then Update(undo.db, Err(Store(undo.res.error)), RollbackAborted)
    else
      var back := Rename(undo.db, Old, Signatures, f.undoRename);
      if back.res.Err? then Update(back.db, Err(Store(back.res.error)), RollbackAborted)
      else Update(back.db, Err(cause), RolledBack)
  }

  /**
   * The commit branch that drops the backup only once a fresh `signatures`
   * exists: an insert step that never created the table fails the commit
   * with the backup still under `old`.
   */
  function CommitIntended(d: Db, f: UpdateFaults): (u: Update)
    ensures u.res.Ok? <==> u.exit == Committed
    ensures u.exit == Committed || u.exit == CommitFailed
    ensures Signatures in d.tables ==> u == Commit(d, f)
    ensures Signatures !in d.tables ==> u == Update(d, Err(Store(NoSuchTable(Signatures))), CommitFailed)
    ensures Signatures in u.db.tables || u.db == d
    ensures Valid(d) ==> Valid(u.db)
  {
    if Signatures !in d.tables then Update(d, Err(Store(NoSuchTable(Signatures))), CommitFailed)
    else Commit(d, f)
  }

  /**
   * `update_db` with the intended rollback and commit: whenever the insert
   * step fails and the compensating statements themselves do not fault, the
   * store is back to its state before the update, less any stale `old`; and
   * when `signatures` existed at the start, however the update ends, some
   * `signatures` exists or the backup under `old` still holds its rows.
   */
  function UpdateDbIntended(d: Db, src: RecordSource, f: UpdateFaults): (u: Update)
    ensures u.res.Ok? <==> u.exit == Committed
    ensures !f.undoDrop && !f.undoRename.dropTarget && !f.undoRename.alter ==> u.exit != RollbackAborted
    ensures u.exit == RolledBack ==> Signatures in d.tables && u.res.Err? && u.db.tables == d.tables - {Old}
    ensures Signatures in d.tables ==>
              Signatures in u.db.tables || (Old in u.db.tables && u.db.tables[Old] == d.tables[Signatures])
    ensures Valid(d) ==> Valid(u.db)
  {
    match Stage(d, src, f)
    case Stopped(u) => u
    case Filled(filled, fill) =>
      if fill.Err? then
        var u := RollbackIntended(filled, fill.error, f);
        assert u.exit == RolledBack ==> u.db.tables == d.tables - {Old};
        u
      else CommitIntended(filled, f)
  }

  /** A rolled-back update leaves every lookup and the count as they were. */
  lemma RolledBackKeepsLookups(d: Db, src: RecordSource, f: UpdateFaults, h: Hash)
    requires UpdateDb(d, src, f).exit == RolledBack
    ensures HashExists(UpdateDb(d, src, f).db, h, false) == HashExists(d, h, false)
    ensures CountHashes(UpdateDb(d, src, f).db, false) == CountHashes(d, false)
  {
  }

  /** A committed update returns what `count_hashes` reports on the new table. */
  lemma CommittedReturnsCount(d: Db, src: RecordSource, f: UpdateFaults)
    requires UpdateDb(d, src, f).exit == Committed
    ensures CountHashes(UpdateDb(d, src, f).db, false) == Ok(UpdateDb(d, src, f).res.value)
  {
  }

  const NoFaults := UpdateFaults(RenameFaults(false, false), false, RenameFaults(false, false),
                                 false, false, false, false, false)

  /**
   * The insert step fails before the fresh table exists (its `init_table`
   * statement faults); no compensating statement faults, yet the rollback
   * stops at `drop("signatures")`: the store is left without `signatures`
   * and the previous rows sit under `old`.  The intended rollback restores.
   */
  lemma RollbackStrandsBackup()
    ensures var d := Db(map[Signatures := ["a"]], None);
            var src := RecordSource(true, true, [Batch(["b"], BatchFaults(true, false, {}, false))]);
            var u := UpdateDb(d, src, NoFaults);
            && u.exit == RollbackAborted
            && u.res == Err(Store(NoSuchTable(Signatures)))
            && Signatures !in u.db.tables
            && u.db.tables[Old] == ["a"]
            && UpdateDbIntended(d, src, NoFaults).db.tables == d.tables
  {
    var d := Db(map[Signatures := ["a"]], None);
    var src := RecordSource(true, true, [Batch(["b"], BatchFaults(true, false, {}, false))]);
    var backup := Rename(d, Signatures, Old, NoFaults.backup);
    assert backup.db.tables == map[Old := ["a"]];
    var fill := InsertAll(backup.db, src.files);
    assert fill == Fill(backup.db, Err(Store(IoFault)));
  }

  /**
   * A download that yields no file leaves the insert step successful without
   * ever creating a fresh `signatures`.  The commit branch as written then
   * drops `old` before `create_index` finds no table: the store ends with no
   * table at all.  The intended commit stops with the backup still in place.
   */
  lemma EmptyFillLosesBackup()
    ensures var d := Db(map[Signatures := ["a"]], None);
            var src := RecordSource(true, true, []);
            var u := UpdateDb(d, src, NoFaults);
            var v := UpdateDbIntended(d, src, NoFaults);
            && u.exit == CommitFailed
            && u.res == Err(Store(NoSuchTable(Signatures)))
            && u.db.tables == map[]
            && v.exit == CommitFailed
            && v.db.tables == map[Old := ["a"]]
  {
    var d := Db(map[Signatures := ["a"]], None);
    var backup := Rename(d, Signatures, Old, NoFaults.backup);
    assert backup.db.tables == map[Old := ["a"]];
    var dropped := Drop(backup.db, Old, false);
    assert dropped.db.tables == map[];
  }

  /**
   * After an aborted rollback, reopening the store (`init_table` creates an
   * empty `signatures`) and starting the next update parks the empty table
   * under `old`, dropping the stranded backup: its rows are lost.
   */
  lemma StrandedBackupOverwritten(d: Db)
    requires Signatures !in d.tables && Old in d.tables
    ensures var reopened := InitTable(d, false).db;
            var next := Rename(reopened, Signatures, Old, RenameFaults(false, false));
            next.res.Ok? && next.db.tables[Old] == [] && Signatures !in next.db.tables
  {
  }
}

=== FILE: wrappers.dfy ===
/** Failure-carrying datatypes shared by the store and the scanner. */
module Wrappers {

  /** A value that may be absent: Rust's `Option`. */
  datatype Option<+T> = None | Some(value: T)

  /** A value or an error: Rust's `Result`. */
  datatype Result<+T, +E> = Ok(value: T) | Err(error: E)
}
